=== FILE: README.md ===
# Federated-averaging round protocol, modelled in Dafny

This project models the core of a single-process federated-learning
simulation. A fixed set of clients each hold a flattened parameter vector.
An aggregator runs synchronous rounds over them. Two aggregator classes
exist:

- `NoCommunicationAggregator`: every client trains alone.
- `CentralizedAggregator`: clients train locally, their parameters are merged
  into a weighted sum, and the sum is broadcast back to every client.

Around this core sit a few configuration helpers: the client weighting policy
(`get_clients_weights`), the dispatch from an aggregator name to a class
(`get_aggregator`), the dataset directory (`get_data_dir`) and an error
message (`experiment_not_implemented_message`).

Modules:

- `Results` (`results.dfy`): `Option` and `Result`. They stand for Python's
  `None` and for raised exceptions.
- `Vectors` (`vectors.dfy`): parameter vectors as `seq<real>`, and the
  weighted sum accumulated from a zero vector in client order.
- `ClientsWeights` (`weights.dfy`): the weighting policy.
- `Aggregators` (`aggregator.dfy`): the aggregator state record, and
  construction, `mix`, `update_clients` and `write_logs` as pure transitions.
- `Config` (`config.dfy`): the name dispatch, the path building and the
  messages.
- `Scenarios` (`scenarios.dfy`): one end-to-end round built from the
  weighting policy.

The model cannot see three collaborators, so each is a function parameter:

- a client's local `step()`: `LocalStep`, from the client index and its
  parameters to its new parameters;
- whether a client's `get_param_tensor()` returns `None`: `ParamsReadable`;
- a client's own `write_logs(counter)`: `Evaluation`.

`int(time.time())` is the parameter `now`.

Some behaviours of the code that a reader might not expect, all modelled as
written:

- Suppose some clients' parameter reads return `None`, but not all. The merge
  loop still runs its index over all `n_clients`, but it reads the shorter
  list of collected vectors. The round therefore raises `IndexError` at the
  number of clients whose read succeeded. This is the `IndexError` outcome
  of `MixCentralized`. If no read returns parameters, `mix` returns early;
  that is an ordinary return, so a later call of `mix` goes ahead. In both
  cases every client has already stepped.
- Nothing checks that there is one weight per client, or that all vectors
  have the same dimension. Both are stated as `requires` (`WellFormed`,
  `PreservesDim`).
- With the "weighted" policy and zero samples in total, the code raises
  `ZeroDivisionError`, and only if there is at least one client. An unknown
  policy likewise raises only for a non-empty client list. With no clients,
  the result is `[]` whatever the policy.
- For an unknown aggregator name, `get_aggregator` builds an error message but
  neither raises nor returns it. It returns `None`.
- `get_data_dir` uses `os.path.join`. It equals `"data/" + name + "/all_data"`
  only for names that are non-empty, not absolute and not slash-terminated.

## Model

| member | source | states |
|---|---|---|
| `Aggregators.RngSeed` | TP1_bonus/aggregator.py:24-26 | the generators' seed is the given seed when present and non-negative, otherwise the clock value |
| `Aggregators.ExplicitSeedIsReproducible` | TP1_bonus/aggregator.py:24 | a non-negative explicit seed makes the seed independent of the clock |
| `Aggregators.Init` | TP1_bonus/aggregator.py:15-41 | construction stores clients, weights and global parameters unchecked, sets n_clients to the client count and the model dimension to the global vector's length, stores the verbosity and the chosen seed, and starts at round 0 |
| `Aggregators.InitWellFormedIff` | TP1_bonus/aggregator.py:28-39 | a constructed aggregator has one weight per client and uniform dimensions exactly when the caller supplied them; construction itself checks neither |
| `Aggregators.CollectParams` | TP1_bonus/aggregator.py:109-116 | the collected list has all n entries (and equals the clients' vectors) iff every read succeeds, and is empty iff every read returns None |
| `Aggregators.ReadableIndicesSpec` | TP1_bonus/aggregator.py:109-116 | the list of clients whose read does not return None is strictly increasing, holds only such clients, and includes every one of them |
| `Aggregators.ReadableCount` | TP1_bonus/aggregator.py:109-116 | that list names each readable client exactly once: its length is the number of clients whose read succeeds |
| `Aggregators.CollectedAreReadable` | TP1_bonus/aggregator.py:109-116 | the collected list keeps exactly the non-None reads, in client order: entry k is the vector of the k-th readable client, and the list is as long as there are readable clients |
| `Aggregators.CollectKeepsDim` | TP1_bonus/aggregator.py:109-116 | collected vectors keep the model dimension |
| `Aggregators.Merge` | TP1_bonus/aggregator.py:122-124 | the merge fails exactly when fewer vectors were collected than there are clients, at index len(client_params); otherwise coordinate j of the result is the weighted total of the collected vectors' coordinates j |
| `Aggregators.MergeParams` | TP1_bonus/aggregator.py:122-124 | the merge loop from a zero vector raises at index len(client_params) when fewer vectors were collected than there are clients, and otherwise yields the weighted sum of all client vectors in index order |
| `Aggregators.UpdateClients` | TP1_bonus/aggregator.py:94-140 | both update_clients methods: without communication (lines 94-95) nothing changes; the centralized broadcast (lines 135-140) gives every client the global vector and leaves global vector and counter alone; neither changes the seed or the verbosity |
| `Aggregators.MixNoCommunication` | TP1_bonus/aggregator.py:88-92 | every client steps exactly once, the counter grows by one, the global vector, weights, log, seed and verbosity are untouched |
| `Aggregators.MixCentralized` | TP1_bonus/aggregator.py:99-133 | a round that does not complete changes only the stepped clients, leaving counter and global vector as they were; a completed round sets the global vector to the weighted sum of the stepped client vectors, makes every client equal to it, keeps the aggregator well-formed and counts exactly one round; weights, log, seed and verbosity never change |
| `Aggregators.MixCentralizedOutcome` | TP1_bonus/aggregator.py:104-124 | a centralized round completes iff there are clients and every read succeeds, returns early iff every read returns None (including when there are no clients), and otherwise raises IndexError at the number of clients whose read succeeded, which lies strictly between 0 and n |
| `Aggregators.Mix` | TP1_bonus/aggregator.py:88-133 | whichever class runs, the aggregator stays ready for the next call, and a completed round adds exactly one to the counter; a round that does not complete leaves counter and global vector unchanged; weights, seed and verbosity never change; without communication the round always completes and the global vector never changes |
| `Aggregators.Rounds` | TP1_bonus/aggregator.py:88-133 | of k successive mix calls, all are made unless one raises IndexError, which ends the run at once without counting a round (an early return does not end it); the counter grows by exactly the number of calls that completed; if none completed the global vector is unchanged; without communication all k complete and the global vector never changes; after a completed last centralized call every client holds the global vector |
| `Aggregators.CentralizedRoundsFromStart` | TP1_bonus/aggregator.py:131-140 | from construction, the counter equals the number of completed centralized calls, and after a completed last call every client equals the global vector |
| `Aggregators.EarlyReturnDoesNotEndRun` | TP1_bonus/aggregator.py:118-120 | a call that returns early is followed by the remaining calls, which are made and counted as from the state it left |
| `Aggregators.IndexErrorEndsRun` | TP1_bonus/aggregator.py:122-133 | a mix call that raises IndexError is the last call of the run, and the counter is not advanced |
| `Aggregators.NonErrorContinues` | TP1_bonus/aggregator.py:88-133 | a mix call that completes or returns early is followed by the remaining calls from the state it left, adding one call and, if it completed, one counted round |
| `Aggregators.NoCommunicationRounds` | TP1_bonus/aggregator.py:88-95 | any number of no-communication rounds complete, are all counted, and leave the global vector unchanged |
| `Aggregators.MixIgnoresLog` | TP1_bonus/aggregator.py:51-84 | the logged trace has no influence on a round: in the model, logging between rounds never changes the next round's outcome, parameters or counter |
| `Aggregators.WriteLogs` | TP1_bonus/aggregator.py:51-84 | the four logged values are the weight-weighted sums of the clients' train/test loss and metric over all clients in order; the log gains exactly those four entries keyed by the current round; nothing else changes |
| `Aggregators.RunningTotalIsDot` | TP1_bonus/aggregator.py:52-71 | the running total the write_logs loop accumulates client by client equals the weighted sum of that series over all clients |
| `Aggregators.WeightedMetricWithinClientRange` | TP1_bonus/aggregator.py:68-71 | with non-negative weights summing to one, each logged value lies between the smallest and largest client value |
| `Vectors.WeightedSum` | TP1_bonus/aggregator.py:122-124 | the merged vector has the model dimension |
| `Vectors.WeightedSumAt` | TP1_bonus/aggregator.py:122-124 | coordinate j of the merged vector is the weighted total of the clients' coordinates j |
| `Vectors.CoordinateOfCopies` | TP1_bonus/aggregator.py:122-124 | merging copies of one vector scales each coordinate by the total weight |
| `Vectors.MergeOfIdenticalVectors` | TP1_bonus/aggregator.py:122-128 | with weights summing to one, merging identical client vectors gives that vector back |
| `Vectors.TwoClientMerge` | TP1_bonus/aggregator.py:122-124 | two clients with weights a and b merge to a*v0 + b*v1 coordinate-wise |
| `ClientsWeights.Weights` | TP1_bonus/utils/utils.py:292-329 | a successful result has one weight per client |
| `ClientsWeights.GetClientsWeights` | TP1_bonus/utils/utils.py:308-329 | the source's two loops (total, then one weight per client, raising at the first client) agree with the closed form on every input |
| `ClientsWeights.AverageWeights` | TP1_bonus/utils/utils.py:317-318 | "average" gives every client 1/n and the weights sum to one |
| `ClientsWeights.WeightedWeights` | TP1_bonus/utils/utils.py:320-321 | "weighted" with a positive total gives client i its share samples_i/total, in [0, 1], and the shares sum to one |
| `ClientsWeights.WeightedWeightsBounded` | TP1_bonus/utils/utils.py:320-321 | every "weighted" share lies in [0, 1] |
| `ClientsWeights.WeightedSumsToOne` | TP1_bonus/utils/utils.py:311-321 | the "weighted" shares sum to one |
| `ClientsWeights.WeightedIsScaledCounts` | TP1_bonus/utils/utils.py:311-321 | the "weighted" weights are the sample counts divided by their total |
| `ClientsWeights.WeightedWithoutSamplesFails` | TP1_bonus/utils/utils.py:311-321 | "weighted" over clients without samples raises a division by zero |
| `ClientsWeights.UnsupportedObjectiveRaises` | TP1_bonus/utils/utils.py:315-329 | an unknown policy raises, naming itself, only when there is a client; with none the result is [] |
| `ClientsWeights.SuccessfulWeightsAreDistribution` | TP1_bonus/utils/utils.py:308-329 | any successful result over a non-empty population has entries in [0, 1] summing to one |
| `ClientsWeights.WeightedExample` | TP1_bonus/utils/utils.py:320-321 | sample counts 10, 30, 60 give weights 0.1, 0.3, 0.6 exactly |
| `ClientsWeights.SumOfCounts` | TP1_bonus/utils/utils.py:311-313 | the accumulated integer total equals the sum of the counts |
| `Config.GetAggregator` | TP1_bonus/utils/utils.py:268-289 | "centralized" and "no_communication" build the matching class at round 0 with the given clients, weights, global vector and seed rule; every other name yields None |
| `Config.UnknownAggregatorMessage` | TP1_bonus/utils/utils.py:287-289 | the rejected-type message is the rejected name, then the fixed header " is not a possible aggregator type, possible are: ", then one space and name per known type |
| `Config.UnknownAggregatorMessageLists` | TP1_bonus/utils/utils.py:287-289 | every known type appears in the message after a space, in order |
| `Config.TypeListMentions` | TP1_bonus/utils/utils.py:288-289 | the appended list holds each known type after a space, at the offset left by the earlier ones |
| `Config.DataDir` | TP1_bonus/utils/utils.py:30-38 | every data directory ends in /all_data; a relative or empty name stays below data/, an absolute name replaces it |
| `Config.DataDirOfPlainName` | TP1_bonus/utils/utils.py:30-38 | for a non-empty, relative, not slash-terminated name the directory is data/<name>/all_data, so the cifar10 branch agrees with the generic one |
| `Config.DataDirOfAbsoluteName` | TP1_bonus/utils/utils.py:37 | an absolute name replaces the data prefix: the directory is <name>/all_data |
| `Config.DataDirOfEmptyName` | TP1_bonus/utils/utils.py:37 | an empty name gives data/all_data |
| `Config.DataDirOfSlashTerminatedName` | TP1_bonus/utils/utils.py:37 | a slash-terminated name gets no doubled separator |
| `Config.DataDirDeterminesName` | TP1_bonus/utils/utils.py:30-38 | for plain names the experiment name can be read back from the directory |
| `Config.ExperimentNotImplementedMessage` | TP1_bonus/utils/utils.py:23-27 | the message is the experiment name followed by the fixed list of available experiments |
| `Config.ExperimentMessageRoundTrip` | TP1_bonus/utils/utils.py:23-27 | the experiment name can be read back from the message |
| `Scenarios.ThreeEqualClientsOneRound` | TP1_bonus/aggregator.py:122-133 | three clients of 100 samples under "average" weigh 1/3 each; if every client steps to [1, 2], one centralized round merges to [1, 2], broadcasts it to all clients and sets the counter to 1 |

## Left out

- `get_model`, `get_learner`, `get_loader` and `init_client` are left out. They construct torch models, optimisers, transforms and data loaders, and download pretrained weights; all of that is foreign library code.
- `TP1_bonus/datasets/cifar10.py`, `TP1_bonus/data/new.py` and `TP1_bonus/models.py` are left out. They are file loading, a print script and a network definition without logic of their own.
- A client's local optimisation is an opaque function of its index and its parameters. Optimiser state, data order and any exception raised inside `step()` are not modelled.
- The random generators are not modelled; only the seed they are created from is kept. The logger object, `flush`, `tqdm.write` output, debug prints and the `verbose` levels are left out. Logging is kept only as an appended trace of (tag, value, round).
- Parameters and weights are exact reals. float32 rounding, the float32 cast of the weights in `CentralizedAggregator.mix`, and torch shape broadcasting are not modelled. Equal dimensions are a precondition instead.
- The global learner's `get_param_tensor()` in `update_clients` is taken to return the vector just set. Only client reads can return `None`.
- The `device` attribute is not modelled: it is an opaque execution target. `utils/torch_utils` is not part of this model.
- `Config.GetAggregator`: the error message for an unknown name is built and discarded by the source. The model returns `None` and states the message separately in `Config.UnknownAggregatorMessage`. `AGGREGATOR_TYPES` comes from a constants module that is not part of this model, so the list of types is a parameter.
- `Vectors.WeightedSum`: its own contract states only the dimension of the merged vector. Its meaning, coordinate by coordinate, is proved in `Vectors.WeightedSumAt`.
- `ClientsWeights.Weights`: its own contract states only the number of weights. The values for each policy and the sum-to-one property are proved in the lemmas that follow it.
- `model_dim` is read from the global learner, whose class is not part of this model; the model takes it to be the length of the global parameter vector (`Aggregators.Init`).
- `Aggregators.MixIgnoresLog`: a client's `write_logs` is taken to be a pure evaluation with no effect on its later steps. The client class is not part of this model. If it evaluates on its shuffled train loader, it draws from the global random generator and changes the next round's batch order, which this lemma does not cover.
- `Aggregators.WriteLogs`: the source `write_logs` returns nothing. The model's second result `m` exists only to state which four values are logged.
- `Config.DataDir` uses POSIX `os.path.join` semantics. Windows separators are not modelled.

=== FILE: aggregator.dfy ===
/** The round protocol of the two aggregators: construction, `mix`,
    `update_clients` and `write_logs`, as pure transitions on an immutable
    aggregator record. The clients' local optimisation, their parameter reads
    and their evaluation are collaborators the model cannot see, so they are
    passed in as functions. */
module Aggregators {
  import opened Results
  import opened Vectors

  /** The two concrete aggregator classes. */
  datatype Strategy = NoCommunication | Centralized

  /** One `logger.add_scalar(tag, value, step)` call. */
  datatype Scalar = Scalar(tag: string, value: real, step: nat)

  /** The four numbers a client's `write_logs` returns. */
  datatype Metrics = Metrics(trainLoss: real, trainMetric: real, testLoss: real, testMetric: real)

  /** The state an aggregator owns. `clients[i]` is client `i`'s learner
      parameters, `global` the global learner's; `rngSeed` is the seed both
      generators were created from. */
  datatype Aggregator = Aggregator(
    strategy: Strategy,
    clients: seq<Vector>,
    nClients: nat,
    weights: seq<real>,
    global: Vector,
    modelDim: nat,
    verbose: int,
    rngSeed: int,
    cRound: nat,
    log: seq<Scalar>)

  /** Client `i`'s `step()`: its parameters after its local optimisation. */
  type LocalStep = (nat, Vector) -> Vector

  /** Whether client `i`'s `get_param_tensor()` returns its parameters
      (true) or `None` (false). */
  type ParamsReadable = (nat, Vector) -> bool

  /** Client `i`'s `write_logs(counter)`, given its parameters and the counter. */
  type Evaluation = (nat, Vector, nat) -> Metrics

  /** The two outcomes of `mix` plus the exception its merge loop can raise.
      `next` is the aggregator as the call leaves it; after an early return
      or the exception the clients have already stepped. */
  datatype MixOutcome =
    | Completed(next: Aggregator)
    | ReturnedEarly(next: Aggregator)
    | IndexError(index: nat, next: Aggregator)

  // ---------------------------------------------------------------------
  // Construction
  // ---------------------------------------------------------------------

  /** The seed of `random.Random` and `np.random.default_rng`: the given seed
      when there is one and it is non-negative, otherwise `int(time.time())`,
      passed in as `now`. */
  function RngSeed(seed: Option<int>, now: int): (r: int)
    ensures seed.Some? && seed.value >= 0 ==> r == seed.value
    ensures seed.None? || seed.value < 0 ==> r == now
  {
    if seed.Some? && seed.value >= 0 then seed.value else now
  }

  /** A non-negative explicit seed makes the run independent of the clock. */
  lemma ExplicitSeedIsReproducible(seed: int, now1: int, now2: int)
    requires seed >= 0
    ensures RngSeed(Some(seed), now1) == RngSeed(Some(seed), now2) == seed
  {
  }

  /** `Aggregator.__init__`: stores its arguments unchecked and starts at round 0. */
  function Init(strategy: Strategy, clients: seq<Vector>, weights: seq<real>, global: Vector,
                verbose: int, seed: Option<int>, now: int): (a: Aggregator)
    ensures a.cRound == 0
    ensures a.nClients == |clients| && a.clients == clients
    ensures a.weights == weights && a.global == global && a.modelDim == |global|
    ensures a.rngSeed == RngSeed(seed, now) && a.verbose == verbose
    ensures a.log == [] && a.strategy == strategy
  {
    Aggregator(strategy, clients, |clients|, weights, global, |global|, verbose,
               RngSeed(seed, now), 0, [])
  }

  /** The invariants the source assumes but never checks: one weight per
      client, and every learner of the model's dimension. */
  predicate WellFormed(a: Aggregator)
  {
    && a.nClients == |a.clients|
    && |a.weights| == |a.clients|
    && |a.global| == a.modelDim
    && AllDim(a.clients, a.modelDim)
  }

  /** The constructor yields a well-formed aggregator exactly when the caller
      passed matching lengths and dimensions. */
  lemma InitWellFormedIff(strategy: Strategy, clients: seq<Vector>, weights: seq<real>, global: Vector,
                          verbose: int, seed: Option<int>, now: int)
    ensures WellFormed(Init(strategy, clients, weights, global, verbose, seed, now))
        <==> |weights| == |clients| && AllDim(clients, |global|)
  {
  }

  // ---------------------------------------------------------------------
  // Rounds
  // ---------------------------------------------------------------------

  /** A local step keeps vectors of dimension `d` at dimension `d`. */
  ghost predicate PreservesDim(step: LocalStep, d: nat)
  {
    forall i: nat, v: Vector :: |v| == d ==> |step(i, v)| == d
  }

  /** What `mix` needs of its aggregator: for both strategies the client count
      set at construction; for the centralized one also well-formedness and a
      dimension-preserving local step. */
  ghost predicate Ready(a: Aggregator, step: LocalStep)
  {
    && a.nClients == |a.clients|
    && (a.strategy.Centralized? ==> WellFormed(a) && PreservesDim(step, a.modelDim))
  }

  /** Every client runs `step()` once, in index order. */
  function StepAll(clients: seq<Vector>, step: LocalStep): (r: seq<Vector>)
    ensures |r| == |clients|
    ensures forall i :: 0 <= i < |clients| ==> r[i] == step(i, clients[i])
  {
    seq(|clients|, i requires 0 <= i < |clients| => step(i, clients[i]))
  }

  /** Every client's parameter read succeeds. */
  predicate AllReadable(vs: seq<Vector>, readable: ParamsReadable)
  {
    forall i :: 0 <= i < |vs| ==> readable(i, vs[i])
  }

  /** Every client's parameter read returns `None`. */
  predicate NoneReadable(vs: seq<Vector>, readable: ParamsReadable)
  {
    forall i :: 0 <= i < |vs| ==> !readable(i, vs[i])
  }

  /** The clients whose parameter read succeeds, listed by index. */
  function ReadableIndices(vs: seq<Vector>, readable: ParamsReadable): (ix: seq<nat>)
    ensures |ix| <= |vs|
  {
    var n := |vs|;
    if n == 0 then []
    else
      var front := ReadableIndices(vs[..n - 1], readable);
      if readable(n - 1, vs[n - 1]) then front + [n - 1] else front
  }

  /** Every listed index names a client of `vs` whose read succeeds. */
  predicate ListsOnlyReadable(ix: seq<nat>, vs: seq<Vector>, readable: ParamsReadable)
  {
    forall p :: 0 <= p < |ix| ==> ix[p] < |vs| && readable(ix[p], vs[ix[p]])
  }

  predicate StrictlyIncreasing(ix: seq<nat>)
  {
    forall p, q :: 0 <= p < q < |ix| ==> ix[p] < ix[q]
  }

  /** Every client of `vs` whose read succeeds is listed. */
  predicate ListsEveryReadable(ix: seq<nat>, vs: seq<Vector>, readable: ParamsReadable)
  {
    forall i :: 0 <= i < |vs| && readable(i, vs[i]) ==> i in ix
  }

  /** The index list is strictly increasing and holds exactly the readable
      clients. */
  lemma {:induction false} ReadableIndicesSpec(vs: seq<Vector>, readable: ParamsReadable)
    ensures ListsOnlyReadable(ReadableIndices(vs, readable), vs, readable)
    ensures StrictlyIncreasing(ReadableIndices(vs, readable))
    ensures ListsEveryReadable(ReadableIndices(vs, readable), vs, readable)
  {
    var n := |vs|;
    if n > 0 {
      var front := vs[..n - 1];
      ReadableIndicesSpec(front, readable);
      var ix0 := ReadableIndices(front, readable);
      var ix := if readable(n - 1, vs[n - 1]) then ix0 + [n - 1] else ix0;
      assert ReadableIndices(vs, readable) == ix;
      forall p | 0 <= p < |ix| ensures ix[p] < |vs| && readable(ix[p], vs[ix[p]]) {
        if p < |ix0| {
          assert ix0[p] < |front| && readable(ix0[p], front[ix0[p]]);
          assert ix[p] == ix0[p] && front[ix0[p]] == vs[ix0[p]];
        } else {
          assert readable(n - 1, vs[n - 1]) && ix[p] == n - 1;
        }
      }
      forall p, q | 0 <= p < q < |ix| ensures ix[p] < ix[q] {
        if q < |ix0| {
          assert ix[p] == ix0[p] && ix[q] == ix0[q];
        } else {
          assert ix0[p] < |front|;
          assert ix[p] == ix0[p] < n - 1;
        }
      }
      forall i | 0 <= i < |vs| && readable(i, vs[i]) ensures i in ix {
        if i < n - 1 {
          assert front[i] == vs[i] && i in ix0;
        }
      }
    }
  }

  /** The set of readable clients, counted. */
  ghost function ReadableSet(vs: seq<Vector>, readable: ParamsReadable): set<nat>
  {
    set i: nat | i < |vs| && readable(i, vs[i])
  }

  /** The index list names each readable client once: its length is the
      number of readable clients. */
  lemma {:induction false} ReadableCount(vs: seq<Vector>, readable: ParamsReadable)
    ensures |ReadableIndices(vs, readable)| == |ReadableSet(vs, readable)|
  {
    var n := |vs|;
    if n > 0 {
      var front := vs[..n - 1];
      ReadableCount(front, readable);
      ReadableSetSnoc(vs, readable);
      if readable(n - 1, vs[n - 1]) {
        assert ReadableIndices(vs, readable) == ReadableIndices(front, readable) + [n - 1];
      } else {
        assert ReadableIndices(vs, readable) == ReadableIndices(front, readable);
      }
    }
  }

  /** One more client adds its index to the readable set exactly when its
      read succeeds. */
  lemma ReadableSetSnoc(vs: seq<Vector>, readable: ParamsReadable)
    requires |vs| > 0
    ensures var n := |vs|;
      && n - 1 !in ReadableSet(vs[..n - 1], readable)
      && ReadableSet(vs, readable)
         == ReadableSet(vs[..n - 1], readable) + (if readable(n - 1, vs[n - 1]) then {n - 1} else {})
  {
    var n := |vs|;
    var front := vs[..n - 1];
    forall i: nat
      ensures i in ReadableSet(vs, readable)
          <==> i in ReadableSet(front, readable) || (i == n - 1 && readable(n - 1, vs[n - 1]))
    {
      if i < n - 1 {
        assert front[i] == vs[i];
      }
    }
  }

  /** The collection loop: the non-`None` parameter vectors, appended in
      client order, so position `k` of the result is NOT client `k` once a
      read has failed. */
  function CollectParams(vs: seq<Vector>, readable: ParamsReadable): (r: seq<Vector>)
    ensures |r| <= |vs|
    ensures |r| == |vs| <==> AllReadable(vs, readable)
    ensures AllReadable(vs, readable) ==> r == vs
    ensures |r| == 0 <==> NoneReadable(vs, readable)
  {
    var n := |vs|;
    if n == 0 then []
    else
      var front := CollectParams(vs[..n - 1], readable);
      assert forall i :: 0 <= i < n - 1 ==> vs[..n - 1][i] == vs[i];
      assert vs == vs[..n - 1] + [vs[n - 1]];
      if readable(n - 1, vs[n - 1]) then front + [vs[n - 1]] else front
  }

  /** `r` lists the vectors of `vs` at the indices `ix`, in that order. */
  predicate PicksAt(r: seq<Vector>, vs: seq<Vector>, ix: seq<nat>)
  {
    |r| == |ix| && forall k :: 0 <= k < |r| ==> ix[k] < |vs| && r[k] == vs[ix[k]]
  }

  /** The collected list is the subsequence of readable clients' vectors:
      entry `k` is the vector of the `k`-th readable client, so, by
      `ReadableCount`, the list is as long as there are readable clients. */
  lemma {:induction false} CollectedAreReadable(vs: seq<Vector>, readable: ParamsReadable)
    ensures PicksAt(CollectParams(vs, readable), vs, ReadableIndices(vs, readable))
  {
    var n := |vs|;
    if n > 0 {
      var front := vs[..n - 1];
      CollectedAreReadable(front, readable);
      var r0 := CollectParams(front, readable);
      var ix0 := ReadableIndices(front, readable);
      PicksAtWider(r0, front, vs, ix0);
      CollectSnoc(vs, readable);
      if readable(n - 1, vs[n - 1]) {
        PicksAtSnoc(r0, vs, ix0, n - 1);
      }
    }
  }

  /** One more client appends its vector and its index exactly when its read
      succeeds. */
  lemma CollectSnoc(vs: seq<Vector>, readable: ParamsReadable)
    requires |vs| > 0
    ensures readable(|vs| - 1, vs[|vs| - 1]) ==>
              && CollectParams(vs, readable) == CollectParams(vs[..|vs| - 1], readable) + [vs[|vs| - 1]]
              && ReadableIndices(vs, readable) == ReadableIndices(vs[..|vs| - 1], readable) + [|vs| - 1]
    ensures !readable(|vs| - 1, vs[|vs| - 1]) ==>
              && CollectParams(vs, readable) == CollectParams(vs[..|vs| - 1], readable)
              && ReadableIndices(vs, readable) == ReadableIndices(vs[..|vs| - 1], readable)
  {
  }

  lemma PicksAtWider(r: seq<Vector>, front: seq<Vector>, vs: seq<Vector>, ix: seq<nat>)
    requires PicksAt(r, front, ix)
    requires |front| <= |vs| && front == vs[..|front|]
    ensures PicksAt(r, vs, ix)
  {
    forall k | 0 <= k < |r| ensures ix[k] < |vs| && r[k] == vs[ix[k]] {
      assert front[ix[k]] == vs[ix[k]];
    }
  }

  lemma PicksAtSnoc(r: seq<Vector>, vs: seq<Vector>, ix: seq<nat>, i: nat)
    requires PicksAt(r, vs, ix) && i < |vs|
    ensures PicksAt(r + [vs[i]], vs, ix + [i])
  {
    var r1, ix1 := r + [vs[i]], ix + [i];
    forall k | 0 <= k < |r1| ensures ix1[k] < |vs| && r1[k] == vs[ix1[k]] {
      if k < |r| {
        assert r1[k] == r[k] && ix1[k] == ix[k];
      }
    }
  }

  /** Collecting keeps the model dimension of the collected vectors. */
  lemma {:induction false} CollectKeepsDim(vs: seq<Vector>, readable: ParamsReadable, d: nat)
    requires AllDim(vs, d)
    ensures AllDim(CollectParams(vs, readable), d)
  {
    var n := |vs|;
    if n > 0 {
      assert AllDim(vs[..n - 1], d);
      CollectKeepsDim(vs[..n - 1], readable, d);
    }
  }

  /** The merge as the source computes it: index `idx` runs over all `n`
      clients but reads the collected list, so a list shorter than `n` raises
      at its own length; otherwise the weighted sum. */
  function Merge(weights: seq<real>, params: seq<Vector>, n: nat, d: nat): (r: Result<Vector, nat>)
    requires |weights| == n && |params| <= n
    requires AllDim(params, d)
    ensures r.Failure? <==> |params| < n
    ensures r.Failure? ==> r.error == |params|
    ensures r.Success? ==> |r.value| == d
    ensures r.Success? ==> forall j :: 0 <= j < d ==> r.value[j] == Dot(weights, Column(params, d, j))
  {
    if |params| < n then Failure(|params|)
    else
      WeightedSumByColumns(weights, params, d);
      Success(WeightedSum(weights, params, d))
  }

  /** The merge loop itself: starting from `zeros_like(client_params[0])`,
      add `clients_weights[idx] * client_params[idx]` for idx = 0 .. n-1. */
  method MergeParams(weights: seq<real>, params: seq<Vector>, n: nat) returns (r: Result<Vector, nat>)
    requires |weights| == n
    requires 0 < |params| <= n
    requires AllDim(params, |params[0]|)
    ensures |params| < n ==> r == Failure(|params|)
    ensures |params| == n ==> r == Success(WeightedSum(weights, params, |params[0]|))
    ensures r == Merge(weights, params, n, |params[0]|)
  {
    var d := |params[0]|;
    var avg := Zeros(d);
    var idx := 0;
    while idx < n
      invariant 0 <= idx <= n && idx <= |params|
      invariant AllDim(params[..idx], d)
      invariant avg == WeightedSum(weights[..idx], params[..idx], d)
    {
      if idx >= |params| {
        return Failure(idx);
      }
      assert weights[..idx + 1][..idx] == weights[..idx];
      assert params[..idx + 1][..idx] == params[..idx];
      avg := AddScaled(avg, weights[idx], params[idx]);
      idx := idx + 1;
    }
    assert weights[..n] == weights && params[..n] == params;
    return Success(avg);
  }

  /** Every client holds the global parameters. */
  predicate Synced(a: Aggregator)
  {
    forall i :: 0 <= i < |a.clients| ==> a.clients[i] == a.global
  }

  /** `update_clients`: a no-op without communication; the centralized
      aggregator copies the global parameters into every client's learner. */
  function UpdateClients(a: Aggregator): (r: Aggregator)
    ensures r.global == a.global && r.cRound == a.cRound && r.weights == a.weights
    ensures r.strategy == a.strategy && r.nClients == a.nClients && r.log == a.log
    ensures r.modelDim == a.modelDim && r.rngSeed == a.rngSeed && r.verbose == a.verbose
    ensures |r.clients| == |a.clients|
    ensures a.strategy.NoCommunication? ==> r == a
    ensures a.strategy.Centralized? ==> Synced(r)
  {
    match a.strategy
    case NoCommunication => a
    case Centralized => a.(clients := seq(|a.clients|, _ => a.global))
  }

  /** `NoCommunicationAggregator.mix`: every client steps, the round counter
      advances, nothing is exchanged. */
  function MixNoCommunication(a: Aggregator, step: LocalStep): (r: MixOutcome)
    requires a.nClients == |a.clients|
    ensures r.Completed?
    ensures r.next.global == a.global
    ensures r.next.cRound == a.cRound + 1
    ensures |r.next.clients| == |a.clients|
    ensures forall i :: 0 <= i < |a.clients| ==> r.next.clients[i] == step(i, a.clients[i])
    ensures r.next.weights == a.weights && r.next.nClients == a.nClients
    ensures r.next.strategy == a.strategy && r.next.log == a.log && r.next.modelDim == a.modelDim
    ensures r.next.rngSeed == a.rngSeed && r.next.verbose == a.verbose
  {
    Completed(a.(clients := StepAll(a.clients, step), cRound := a.cRound + 1))
  }

  /** `CentralizedAggregator.mix`: local steps, collection, merge, global
      update, broadcast, round increment, in that order. */
  function MixCentralized(a: Aggregator, step: LocalStep, readable: ParamsReadable): (r: MixOutcome)
    requires a.strategy.Centralized?
    requires WellFormed(a) && PreservesDim(step, a.modelDim)
    // a round that does not complete leaves everything but the stepped clients alone
    ensures !r.Completed? ==> r.next == a.(clients := StepAll(a.clients, step))
    // a completed round: merged, broadcast, counted
    ensures r.Completed? ==> r.next.global == WeightedSum(a.weights, StepAll(a.clients, step), a.modelDim)
    ensures r.Completed? ==> Synced(r.next) && r.next.cRound == a.cRound + 1
    ensures r.Completed? ==> WellFormed(r.next)
    ensures r.next.weights == a.weights && r.next.strategy == a.strategy && r.next.log == a.log
    ensures r.next.nClients == a.nClients && r.next.modelDim == a.modelDim
    ensures r.next.rngSeed == a.rngSeed && r.next.verbose == a.verbose
  {
    var stepped := StepAll(a.clients, step);
    assert AllDim(stepped, a.modelDim);
    var params := CollectParams(stepped, readable);
    CollectKeepsDim(stepped, readable, a.modelDim);
    var afterStep := a.(clients := stepped);
    if |params| == 0 then ReturnedEarly(afterStep)
    else
      match Merge(a.weights, params, a.nClients, |params[0]|)
      case Failure(index) => IndexError(index, afterStep)
      case Success(avg) =>
        Completed(UpdateClients(afterStep.(global := avg)).(cRound := a.cRound + 1))
  }

  /** Which of the three outcomes a centralized round has: it completes iff
      there are clients and every read succeeds, returns early iff every read
      returns `None`, and otherwise raises at the number of clients whose read
      succeeded. */
  lemma MixCentralizedOutcome(a: Aggregator, step: LocalStep, readable: ParamsReadable)
    requires a.strategy.Centralized?
    requires WellFormed(a) && PreservesDim(step, a.modelDim)
    ensures var r := MixCentralized(a, step, readable);
      var stepped := StepAll(a.clients, step);
      && (r.Completed? <==> a.nClients > 0 && AllReadable(stepped, readable))
      && (r.ReturnedEarly? <==> NoneReadable(stepped, readable))
      && (r.IndexError? ==> 0 < r.index < a.nClients && r.index == |ReadableSet(stepped, readable)|)
  {
    CollectedAreReadable(StepAll(a.clients, step), readable);
    ReadableCount(StepAll(a.clients, step), readable);
  }

  /** `mix`, dispatched on the aggregator's class. */
  function Mix(a: Aggregator, step: LocalStep, readable: ParamsReadable): (r: MixOutcome)
    requires Ready(a, step)
    ensures Ready(r.next, step)
    ensures r.Completed? ==> r.next.cRound == a.cRound + 1
    ensures !r.Completed? ==> r.next.cRound == a.cRound && r.next.global == a.global
    ensures r.next.strategy == a.strategy
    ensures r.next.weights == a.weights && r.next.rngSeed == a.rngSeed && r.next.verbose == a.verbose
    ensures a.strategy.NoCommunication? ==> r.Completed? && r.next.global == a.global
    ensures a.strategy.Centralized? && r.Completed? ==> Synced(r.next)
  {
    match a.strategy
    case NoCommunication => MixNoCommunication(a, step)
    case Centralized => MixCentralized(a, step, readable)
  }

  /** A run of `mix` calls: the outcome of the last call made (`Completed` of
      the starting aggregator when none is made), the number of calls made and
      how many of them completed. */
  datatype Run = Run(last: MixOutcome, calls: nat, completed: nat)

  /** `k` calls of `mix` in a row, as a training loop makes them. An early
      return is an ordinary return, so the next call goes ahead; an
      `IndexError` propagates and ends the run. */
  function Rounds(a: Aggregator, k: nat, step: LocalStep, readable: ParamsReadable): (r: Run)
    requires Ready(a, step)
    // only an IndexError cuts the run short
    ensures r.calls <= k && (r.calls < k ==> r.last.IndexError?)
    ensures r.last.IndexError? ==> r.calls > 0
    // a call that raises is the last one made, and it is not counted
    ensures k > 0 && Mix(a, step, readable).IndexError? ==> r == Run(Mix(a, step, readable), 1, 0)
    ensures r.completed <= r.calls
    ensures Ready(r.last.next, step) && r.last.next.strategy == a.strategy
    // the counter counts exactly the completed calls
    ensures r.last.next.cRound == a.cRound + r.completed
    ensures r.completed == 0 ==> r.last.next.global == a.global
    ensures a.strategy.NoCommunication? ==>
              r.calls == k && r.completed == k && r.last.Completed? && r.last.next.global == a.global
    ensures a.strategy.Centralized? && r.calls > 0 && r.last.Completed? ==> Synced(r.last.next)
    decreases k
  {
    if k == 0 then Run(Completed(a), 0, 0)
    else
      var o := Mix(a, step, readable);
      if o.IndexError? then Run(o, 1, 0)
      else
        var rest := Rounds(o.next, k - 1, step, readable);
        var done := if o.Completed? then 1 else 0;
        Run(if rest.calls == 0 then o else rest.last, rest.calls + 1, rest.completed + done)
  }

  /** From construction, the counter equals the number of completed
      centralized calls, and after a completed last call every client holds
      the global parameters. */
  lemma CentralizedRoundsFromStart(clients: seq<Vector>, weights: seq<real>, global: Vector,
                                   verbose: int, seed: Option<int>, now: int, k: nat,
                                   step: LocalStep, readable: ParamsReadable)
    requires |weights| == |clients| && AllDim(clients, |global|)
    requires PreservesDim(step, |global|)
    ensures var r := Rounds(Init(Centralized, clients, weights, global, verbose, seed, now), k, step, readable);
      && r.last.next.cRound == r.completed
      && (r.calls > 0 && r.last.Completed? ==> Synced(r.last.next))
  {
  }

  /** A call that returns early does not end the run: the calls after it are
      made and counted as if the run had started from where it left off. */
  lemma EarlyReturnDoesNotEndRun(a: Aggregator, k: nat, step: LocalStep, readable: ParamsReadable)
    requires Ready(a, step) && Mix(a, step, readable).ReturnedEarly?
    ensures var rest := Rounds(Mix(a, step, readable).next, k, step, readable);
      var r := Rounds(a, k + 1, step, readable);
      && r.calls == rest.calls + 1 && r.completed == rest.completed
      && r.last.next.cRound == rest.last.next.cRound
  {
  }

  /** A call that raises `IndexError` ends the run: it is the only call
      made, and no round is counted. */
  lemma IndexErrorEndsRun(a: Aggregator, k: nat, step: LocalStep, readable: ParamsReadable)
    requires Ready(a, step) && k > 0 && Mix(a, step, readable).IndexError?
    ensures Rounds(a, k, step, readable) == Run(Mix(a, step, readable), 1, 0)
  {
  }

  /** A call that does not raise is followed by the remaining calls, made from
      the state it left; it adds one call, and one completed round when it
      completed. */
  lemma NonErrorContinues(a: Aggregator, k: nat, step: LocalStep, readable: ParamsReadable)
    requires Ready(a, step) && !Mix(a, step, readable).IndexError?
    ensures var o := Mix(a, step, readable);
      var rest := Rounds(o.next, k, step, readable);
      var r := Rounds(a, k + 1, step, readable);
      && r.calls == rest.calls + 1
      && r.completed == rest.completed + (if o.Completed? then 1 else 0)
      && (k > 0 ==> r.last == rest.last)
      && (k == 0 ==> r.last == o)
  {
  }

  /** Without communication the global parameters never change and every
      round is counted, however many rounds run. */
  lemma NoCommunicationRounds(a: Aggregator, k: nat, step: LocalStep, readable: ParamsReadable)
    requires a.strategy.NoCommunication? && a.nClients == |a.clients|
    ensures var r := Rounds(a, k, step, readable);
      && r.last.Completed? && r.calls == k && r.completed == k
      && r.last.next.global == a.global && r.last.next.cRound == a.cRound + k
  {
  }

  /** The logger trace plays no part in a round: two aggregators that differ
      only in their log reach the same outcome, parameters and counter. */
  lemma MixIgnoresLog(a: Aggregator, log: seq<Scalar>, step: LocalStep, readable: ParamsReadable)
    requires Ready(a, step)
    ensures Ready(a.(log := log), step)
    ensures Mix(a.(log := log), step, readable) == WithLog(Mix(a, step, readable), log)
  {
  }

  /** The same outcome with `next`'s log replaced. */
  function WithLog(o: MixOutcome, log: seq<Scalar>): MixOutcome
  {
    match o
    case Completed(n) => Completed(n.(log := log))
    case ReturnedEarly(n) => ReturnedEarly(n.(log := log))
    case IndexError(i, n) => IndexError(i, n.(log := log))
  }

  // ---------------------------------------------------------------------
  // Logging
  // ---------------------------------------------------------------------

  /** Each client's report for the current round. */
  function Reports(a: Aggregator, evaluate: Evaluation): (r: seq<Metrics>)
    ensures |r| == |a.clients|
  {
    seq(|a.clients|, i requires 0 <= i < |a.clients| => evaluate(i, a.clients[i], a.cRound))
  }

  /** Which of the four logged series. */
  datatype Series = TrainLoss | TrainMetric | TestLoss | TestMetric

  function Pick(m: Metrics, s: Series): real
  {
    match s
    case TrainLoss => m.trainLoss
    case TrainMetric => m.trainMetric
    case TestLoss => m.testLoss
    case TestMetric => m.testMetric
  }

  /** One series across all clients. */
  function SeriesOf(reports: seq<Metrics>, s: Series): (c: seq<real>)
    ensures |c| == |reports|
  {
    seq(|reports|, i requires 0 <= i < |reports| => Pick(reports[i], s))
  }

  /** The four weighted means. */
  function WeightedMetrics(weights: seq<real>, reports: seq<Metrics>): (m: Metrics)
    requires |weights| == |reports|
  {
    Metrics(Dot(weights, SeriesOf(reports, TrainLoss)), Dot(weights, SeriesOf(reports, TrainMetric)),
            Dot(weights, SeriesOf(reports, TestLoss)), Dot(weights, SeriesOf(reports, TestMetric)))
  }

  /** One series' running total after the first `|reports|` clients, added
      in index order from zero, as the `write_logs` loop accumulates it. It is
      `Dot(w, SeriesOf(reports, s))` again (see `RunningTotalIsDot`); it exists
      only to keep the loop invariant of `WriteLogs` small for the solver. */
  function RunningTotal(w: seq<real>, reports: seq<Metrics>, s: Series): real
    requires |w| == |reports|
  {
    var n := |reports|;
    if n == 0 then 0.0
    else RunningTotal(w[..n - 1], reports[..n - 1], s) + w[n - 1] * Pick(reports[n - 1], s)
  }

  /** Taking client `k` into account adds its weighted value. */
  lemma RunningTotalSnoc(w: seq<real>, reports: seq<Metrics>, k: nat, s: Series)
    requires |w| == |reports| && k < |reports|
    ensures RunningTotal(w[..k + 1], reports[..k + 1], s)
         == RunningTotal(w[..k], reports[..k], s) + w[k] * Pick(reports[k], s)
  {
    assert w[..k + 1][..k] == w[..k] && reports[..k + 1][..k] == reports[..k];
  }

  /** The running total is the weighted sum of its series. */
  lemma {:induction false} RunningTotalIsDot(w: seq<real>, reports: seq<Metrics>, s: Series)
    requires |w| == |reports|
    ensures RunningTotal(w, reports, s) == Dot(w, SeriesOf(reports, s))
  {
    var n := |reports|;
    if n > 0 {
      RunningTotalIsDot(w[..n - 1], reports[..n - 1], s);
      SeriesDotStep(w, reports, s);
    }
  }

  /** The last client adds its weighted value to the weighted sum of a series. */
  lemma SeriesDotStep(w: seq<real>, reports: seq<Metrics>, s: Series)
    requires |w| == |reports| > 0
    ensures var n := |reports|;
      Dot(w, SeriesOf(reports, s))
        == Dot(w[..n - 1], SeriesOf(reports[..n - 1], s)) + w[n - 1] * Pick(reports[n - 1], s)
  {
    var n := |reports|;
    var col := SeriesOf(reports, s);
    assert col[..n - 1] == SeriesOf(reports[..n - 1], s);
  }

  /** The four `add_scalar` calls of one `write_logs`, keyed by the round. */
  function LogEntries(m: Metrics, round: nat): seq<Scalar>
  {
    [Scalar("Train/Loss", m.trainLoss, round), Scalar("Train/Metric", m.trainMetric, round),
     Scalar("Test/Loss", m.testLoss, round), Scalar("Test/Metric", m.testMetric, round)]
  }

  /** `write_logs`: accumulates the weighted train/test loss and metric over
      the clients in order and records them under the current round;
      parameters and counter are untouched. The source method returns
      nothing: `m` is exposed only to say what is logged. */
  method WriteLogs(a: Aggregator, evaluate: Evaluation) returns (next: Aggregator, m: Metrics)
    requires |a.weights| == |a.clients|
    ensures m == WeightedMetrics(a.weights, Reports(a, evaluate))
    ensures next == a.(log := a.log + LogEntries(m, a.cRound))
  {
    var reports := Reports(a, evaluate);
    var w := a.weights;
    var trainLoss, trainMetric, testLoss, testMetric := 0.0, 0.0, 0.0, 0.0;
    var k := 0;
    while k < |a.clients|
      invariant 0 <= k <= |a.clients|
      invariant trainLoss == RunningTotal(w[..k], reports[..k], TrainLoss)
      invariant trainMetric == RunningTotal(w[..k], reports[..k], TrainMetric)
      invariant testLoss == RunningTotal(w[..k], reports[..k], TestLoss)
      invariant testMetric == RunningTotal(w[..k], reports[..k], TestMetric)
    {
      var r := evaluate(k, a.clients[k], a.cRound);
      assert r == reports[k];
      RunningTotalSnoc(w, reports, k, TrainLoss);
      RunningTotalSnoc(w, reports, k, TrainMetric);
      RunningTotalSnoc(w, reports, k, TestLoss);
      RunningTotalSnoc(w, reports, k, TestMetric);
      trainLoss := trainLoss + w[k] * r.trainLoss;
      trainMetric := trainMetric + w[k] * r.trainMetric;
      testLoss := testLoss + w[k] * r.testLoss;
      testMetric := testMetric + w[k] * r.testMetric;
      k := k + 1;
    }
    assert w[..k] == w && reports[..k] == reports;
    RunningTotalIsDot(w, reports, TrainLoss);
    RunningTotalIsDot(w, reports, TrainMetric);
    RunningTotalIsDot(w, reports, TestLoss);
    RunningTotalIsDot(w, reports, TestMetric);
    m := Metrics(trainLoss, trainMetric, testLoss, testMetric);
    next := a.(log := a.log + LogEntries(m, a.cRound));
  }

  /** With non-negative weights summing to one, each logged value is a true
      weighted mean: it lies between the clients' smallest and largest value. */
  lemma WeightedMetricWithinClientRange(weights: seq<real>, reports: seq<Metrics>, s: Series, lo: real, hi: real)
    requires |weights| == |reports|
    requires forall i :: 0 <= i < |weights| ==> weights[i] >= 0.0
    requires Sum(weights) == 1.0
    requires forall i :: 0 <= i < |reports| ==> lo <= Pick(reports[i], s) <= hi
    ensures lo <= Pick(WeightedMetrics(weights, reports), s) <= hi
  {
    DotBounds(weights, SeriesOf(reports, s), lo, hi);
  }
}

=== FILE: config.dfy ===
/** The configuration helpers around the core: choosing the aggregator class
    from its name, the dataset directory of an experiment, and the two error
    messages the helpers build. */
module Config {
  import opened Results
  import opened Vectors
  import opened Aggregators

  // ---------------------------------------------------------------------
  // get_aggregator
  // ---------------------------------------------------------------------

  /** Text of the rejected-type message: the header, then each known type
      preceded by one space. */
  function UnknownAggregatorMessage(aggregatorType: string, knownTypes: seq<string>): (msg: string)
    ensures |msg| == |aggregatorType| + |AggregatorHeader| + |knownTypes| + TotalLength(knownTypes)
    ensures msg[..|aggregatorType|] == aggregatorType
    ensures msg[|aggregatorType|..|aggregatorType| + |AggregatorHeader|] == AggregatorHeader
    ensures msg[|aggregatorType| + |AggregatorHeader|..] == TypeList(knownTypes)
  {
    aggregatorType + AggregatorHeader + TypeList(knownTypes)
  }

  const AggregatorHeader: string := " is not a possible aggregator type, possible are: "

  /** Every known type is listed in the message, after a space. */
  lemma UnknownAggregatorMessageLists(aggregatorType: string, knownTypes: seq<string>, k: nat)
    requires k < |knownTypes|
    ensures var at := |aggregatorType| + |AggregatorHeader| + k + TotalLength(knownTypes[..k]);
      var msg := UnknownAggregatorMessage(aggregatorType, knownTypes);
      at + 1 + |knownTypes[k]| <= |msg| && msg[at..at + 1 + |knownTypes[k]|] == " " + knownTypes[k]
  {
    TypeListMentions(knownTypes, k);
    var head := aggregatorType + AggregatorHeader;
    var list := TypeList(knownTypes);
    var at := k + TotalLength(knownTypes[..k]);
    assert (head + list)[|head| + at..|head| + at + 1 + |knownTypes[k]|] == list[at..at + 1 + |knownTypes[k]|];
  }

  /** `" " + t` for each type in order, as the message loop appends them. */
  function TypeList(knownTypes: seq<string>): (s: string)
    ensures |s| == |knownTypes| + TotalLength(knownTypes)
  {
    if |knownTypes| == 0 then ""
    else TypeList(knownTypes[..|knownTypes| - 1]) + " " + knownTypes[|knownTypes| - 1]
  }

  function TotalLength(ss: seq<string>): nat
  {
    if |ss| == 0 then 0 else TotalLength(ss[..|ss| - 1]) + |ss[|ss| - 1]|
  }

  /** Each known type appears in the list after a space, at the offset left by
      the types before it. */
  lemma {:induction false} TypeListMentions(knownTypes: seq<string>, k: nat)
    requires k < |knownTypes|
    ensures var at := k + TotalLength(knownTypes[..k]);
      at + 1 + |knownTypes[k]| <= |TypeList(knownTypes)|
      && TypeList(knownTypes)[at..at + 1 + |knownTypes[k]|] == " " + knownTypes[k]
  {
    var n := |knownTypes|;
    var front := knownTypes[..n - 1];
    if k < n - 1 {
      TypeListMentions(front, k);
      assert front[..k] == knownTypes[..k];
    } else {
      assert front == knownTypes[..k];
    }
  }

  /** `get_aggregator`: the two known names build the matching aggregator at
      round 0; any other name builds a message it never raises and returns
      `None`. */
  function GetAggregator(aggregatorType: string, clients: seq<Vector>, weights: seq<real>,
                         global: Vector, verbose: int, seed: Option<int>, now: int): (r: Option<Aggregator>)
    ensures r.Some? <==> aggregatorType == "centralized" || aggregatorType == "no_communication"
    ensures aggregatorType == "centralized" ==> r.Some? && r.value.strategy == Centralized
    ensures aggregatorType == "no_communication" ==> r.Some? && r.value.strategy == NoCommunication
    ensures r.Some? ==> r.value.cRound == 0 && r.value.clients == clients && r.value.weights == weights
                        && r.value.global == global && r.value.rngSeed == RngSeed(seed, now)
  {
    if aggregatorType == "centralized" then
      Some(Init(Centralized, clients, weights, global, verbose, seed, now))
    else if aggregatorType == "no_communication" then
      Some(Init(NoCommunication, clients, weights, global, verbose, seed, now))
    else
      None
  }

  // ---------------------------------------------------------------------
  // get_data_dir and experiment_not_implemented_message
  // ---------------------------------------------------------------------

  /** `os.path.join(a, b)` with POSIX separators: an absolute `b` replaces
      `a`; otherwise a `/` is inserted unless `a` is empty or already ends
      with one. */
  function PathJoin(a: string, b: string): string
  {
    if |b| > 0 && b[0] == '/' then b
    else if |a| == 0 || a[|a| - 1] == '/' then a + b
    else a + "/" + b
  }

  /** `get_data_dir`: `os.path.join("data", name, "all_data")`, written out
      twice in the source, once for "cifar10" and once for every other name. */
  function DataDir(name: string): (r: string)
    // every directory is an `all_data` directory
    ensures |r| >= 9 && r[|r| - 9..] == "/all_data"
    // a relative name stays below `data`; an absolute one replaces it
    ensures (|name| == 0 || name[0] != '/') ==> |r| >= 5 && r[..5] == "data/"
    ensures |name| > 0 && name[0] == '/' ==> |r| >= |name| && r[..|name|] == name
  {
    DataDirShape(name);
    if name == "cifar10" then PathJoin(PathJoin("data", "cifar10"), "all_data")
    else PathJoin(PathJoin("data", name), "all_data")
  }

  /** The shape of `os.path.join("data", name, "all_data")` for any name. */
  lemma DataDirShape(name: string)
    ensures var r := PathJoin(PathJoin("data", name), "all_data");
      && |r| >= 9 && r[|r| - 9..] == "/all_data"
      && ((|name| == 0 || name[0] != '/') ==> |r| >= 5 && r[..5] == "data/")
      && (|name| > 0 && name[0] == '/' ==> |r| >= |name| && r[..|name|] == name)
  {
    var inner := PathJoin("data", name);
    var r := PathJoin(inner, "all_data");
    JoinAllData(inner);
    if |name| > 0 && name[0] == '/' {
      assert inner == name;
    } else {
      assert inner == "data/" + name;
      assert r[..5] == r[..|inner|][..5] == inner[..5];
    }
  }

  /** Appending the relative "all_data" keeps the front and adds exactly one
      separator. */
  lemma JoinAllData(a: string)
    requires |a| > 0
    ensures var r := PathJoin(a, "all_data");
      |r| >= |a| + 8 && |r| >= 9 && r[..|a|] == a && r[|r| - 9..] == "/all_data"
  {
    var r := PathJoin(a, "all_data");
    if a[|a| - 1] == '/' {
      assert r == a + "all_data";
      assert r[|r| - 9..] == [a[|a| - 1]] + "all_data";
    } else {
      assert r == a + "/all_data";
    }
  }

  /** A name that is neither empty, absolute nor slash-terminated is placed
      between "data/" and "/all_data"; "cifar10" is such a name, so its
      special branch agrees with the generic one. */
  lemma DataDirOfPlainName(name: string)
    requires |name| > 0 && name[0] != '/' && name[|name| - 1] != '/'
    ensures DataDir(name) == "data/" + name + "/all_data"
  {
    var inner := PathJoin("data", name);
    assert inner == "data/" + name;
    assert inner[|inner| - 1] == name[|name| - 1];
    assert PathJoin(inner, "all_data") == inner + "/" + "all_data";
  }

  /** An absolute name escapes the "data" directory altogether. */
  lemma DataDirOfAbsoluteName(name: string)
    requires |name| > 0 && name[0] == '/' && name[|name| - 1] != '/'
    ensures DataDir(name) == name + "/all_data"
  {
  }

  /** An empty name adds no path component. */
  lemma DataDirOfEmptyName()
    ensures DataDir("") == "data/all_data"
  {
  }

  /** A slash-terminated name gets no doubled separator. */
  lemma DataDirOfSlashTerminatedName(name: string)
    requires |name| > 0 && name[0] != '/' && name[|name| - 1] == '/'
    ensures DataDir(name) == "data/" + name + "all_data"
  {
    assert ("data/" + name)[|"data/" + name| - 1] == name[|name| - 1];
  }

  /** For plain names the directory determines the name: it is what lies
      between the fixed prefix and suffix. */
  lemma DataDirDeterminesName(name: string)
    requires |name| > 0 && name[0] != '/' && name[|name| - 1] != '/'
    ensures |DataDir(name)| == |name| + 14
    ensures DataDir(name)[5..|name| + 5] == name
  {
    DataDirOfPlainName(name);
  }

  const UnavailableSuffix: string := " is not available! Possible are: 'mnist', 'cifar10'."

  /** `experiment_not_implemented_message`. */
  function ExperimentNotImplementedMessage(experimentName: string): (msg: string)
    ensures |msg| == |experimentName| + |UnavailableSuffix|
    ensures msg[..|experimentName|] == experimentName
    ensures msg[|experimentName|..] == UnavailableSuffix
  {
    experimentName + UnavailableSuffix
  }

  /** Reads the experiment name back out of such a message. */
  function ExperimentNameOf(msg: string): Option<string>
  {
    if |msg| >= |UnavailableSuffix| && msg[|msg| - |UnavailableSuffix|..] == UnavailableSuffix
    then Some(msg[..|msg| - |UnavailableSuffix|])
    else None
  }

  /** The message names the experiment: reading it back gives the name. */
  lemma ExperimentMessageRoundTrip(experimentName: string)
    ensures ExperimentNameOf(ExperimentNotImplementedMessage(experimentName)) == Some(experimentName)
  {
  }
}

=== FILE: results.dfy ===
/** Failure-carrying wrappers used throughout the model in place of Python's
    `None` returns and raised exceptions. */
module Results {

  /** A Python value that may be `None`. */
  datatype Option<+T> = None | Some(value: T)

  /** A call that either returns normally or raises. */
  datatype Result<+T, +E> = Success(value: T) | Failure(error: E)
}

=== FILE: scenarios.dfy ===
/** End-to-end consequences combining the weighting policy with a round. */
module Scenarios {
  import opened Results
  import opened Vectors
  import opened ClientsWeights
  import opened Aggregators

  /** Three clients of 100 samples each under "average" weigh one third
      each; if every client's local step lands on [1.0, 2.0], one centralized
      round merges to [1.0, 2.0], broadcasts it to every client and counts
      round 1. */
  lemma ThreeEqualClientsOneRound(clients: seq<Vector>, global: Vector, verbose: int,
                                  seed: Option<int>, now: int)
    requires |clients| == 3 && |global| == 2 && AllDim(clients, 2)
    ensures Weights([100, 100, 100], "average") == Success([1.0 / 3.0, 1.0 / 3.0, 1.0 / 3.0])
    ensures var a := Init(Centralized, clients, [1.0 / 3.0, 1.0 / 3.0, 1.0 / 3.0], global, verbose, seed, now);
      var r := Mix(a, (i: nat, v: Vector) => [1.0, 2.0], (i: nat, v: Vector) => true);
      && r.Completed?
      && r.next.global == [1.0, 2.0]
      && (forall i :: 0 <= i < 3 ==> r.next.clients[i] == [1.0, 2.0])
      && r.next.cRound == 1
  {
    var samples: seq<nat> := [100, 100, 100];
    var w := [1.0 / 3.0, 1.0 / 3.0, 1.0 / 3.0];
    AverageWeights(samples);
    assert Weights(samples, "average").value == w;
    var step: LocalStep := (i: nat, v: Vector) => [1.0, 2.0];
    var readable: ParamsReadable := (i: nat, v: Vector) => true;
    var a := Init(Centralized, clients, w, global, verbose, seed, now);
    assert WellFormed(a) && PreservesDim(step, a.modelDim);
    var stepped := StepAll(a.clients, step);
    assert AllReadable(stepped, readable);
    SumOfConstant(w, 1.0 / 3.0);
    MergeOfIdenticalVectors(w, stepped, [1.0, 2.0]);
  }
}

=== FILE: vectors.dfy ===
/** Flattened parameter vectors (the learner's `get_param_tensor` view) and the
    weighted sums the aggregators build from them. Exact reals stand in for
    float32 tensors, so the sums are exact and accumulation order only matters
    for the shape of the definitions, which follow the source's left-to-right
    loops. */
module Vectors {

  /** One model's flattened parameters; its length is the model dimension. */
  type Vector = seq<real>

  /** Left-to-right total, as `total += x` over the sequence. */
  function Sum(xs: seq<real>): real
  {
    if |xs| == 0 then 0.0 else Sum(xs[..|xs| - 1]) + xs[|xs| - 1]
  }

  /** Left-to-right weighted total `w[0] * xs[0] + ... + w[n-1] * xs[n-1]`. */
  function Dot(w: seq<real>, xs: seq<real>): real
    requires |w| == |xs|
  {
    if |xs| == 0 then 0.0
    else Dot(w[..|xs| - 1], xs[..|xs| - 1]) + w[|xs| - 1] * xs[|xs| - 1]
  }

  /** Extending both sequences by one element adds one weighted term. */
  lemma DotSnoc(w: seq<real>, xs: seq<real>, k: nat)
    requires |w| == |xs| && k < |xs|
    ensures Dot(w[..k + 1], xs[..k + 1]) == Dot(w[..k], xs[..k]) + w[k] * xs[k]
  {
    assert w[..k + 1][..k] == w[..k];
    assert xs[..k + 1][..k] == xs[..k];
  }

  /** `torch.zeros_like` for a vector of dimension `d`. */
  function Zeros(d: nat): (z: Vector)
    ensures |z| == d
    ensures forall j :: 0 <= j < d ==> z[j] == 0.0
  {
    seq(d, _ => 0.0)
  }

  /** `c * v`, element-wise. */
  function Scale(c: real, v: Vector): (r: Vector)
    ensures |r| == |v|
    ensures forall j :: 0 <= j < |v| ==> r[j] == c * v[j]
  {
    seq(|v|, j requires 0 <= j < |v| => c * v[j])
  }

  /** The in-place update `acc += c * v`. */
  function AddScaled(acc: Vector, c: real, v: Vector): (r: Vector)
    requires |v| == |acc|
    ensures |r| == |acc|
    ensures forall j :: 0 <= j < |acc| ==> r[j] == acc[j] + c * v[j]
  {
    seq(|acc|, j requires 0 <= j < |acc| => acc[j] + c * v[j])
  }

  /** Every vector in `ps` has dimension `d`. */
  predicate AllDim(ps: seq<Vector>, d: nat)
  {
    forall i :: 0 <= i < |ps| ==> |ps[i]| == d
  }

  /** The merged vector `sum_i w[i] * ps[i]`, accumulated from a zero vector of
      dimension `d` in index order. */
  function WeightedSum(w: seq<real>, ps: seq<Vector>, d: nat): (r: Vector)
    requires |w| == |ps|
    requires AllDim(ps, d)
    ensures |r| == d
  {
    if |ps| == 0 then Zeros(d)
    else AddScaled(WeightedSum(w[..|ps| - 1], ps[..|ps| - 1], d), w[|ps| - 1], ps[|ps| - 1])
  }

  /** Coordinate `j` of every vector in `ps`. */
  function Column(ps: seq<Vector>, d: nat, j: nat): (c: seq<real>)
    requires AllDim(ps, d)
    requires j < d
    ensures |c| == |ps|
  {
    seq(|ps|, i requires 0 <= i < |ps| => ps[i][j])
  }

  /** The merge is computed coordinate by coordinate: coordinate `j` of the
      weighted sum is the weighted total of the clients' coordinates `j`. */
  lemma {:induction false} WeightedSumAt(w: seq<real>, ps: seq<Vector>, d: nat, j: nat)
    requires |w| == |ps|
    requires AllDim(ps, d)
    requires j < d
    ensures WeightedSum(w, ps, d)[j] == Dot(w, Column(ps, d, j))
  {
    var n := |ps|;
    if n > 0 {
      WeightedSumAt(w[..n - 1], ps[..n - 1], d, j);
      assert Column(ps[..n - 1], d, j) == Column(ps, d, j)[..n - 1];
    }
  }

  /** `WeightedSumAt` for every coordinate at once. */
  lemma WeightedSumByColumns(w: seq<real>, ps: seq<Vector>, d: nat)
    requires |w| == |ps|
    requires AllDim(ps, d)
    ensures forall j :: 0 <= j < d ==> WeightedSum(w, ps, d)[j] == Dot(w, Column(ps, d, j))
  {
    forall j | 0 <= j < d
      ensures WeightedSum(w, ps, d)[j] == Dot(w, Column(ps, d, j))
    {
      WeightedSumAt(w, ps, d, j);
    }
  }

  /** A weighted total of one repeated value is that value times the total weight. */
  lemma {:induction false} DotOfConstant(w: seq<real>, xs: seq<real>, c: real)
    requires |w| == |xs|
    requires forall i :: 0 <= i < |xs| ==> xs[i] == c
    ensures Dot(w, xs) == c * Sum(w)
  {
    var n := |xs|;
    if n > 0 {
      DotOfConstant(w[..n - 1], xs[..n - 1], c);
      assert w[..n] == w;
    }
  }

  /** A weighted total lies between the smallest and largest value, scaled by
      the total weight, when the weights are non-negative. */
  lemma {:induction false} DotBounds(w: seq<real>, xs: seq<real>, lo: real, hi: real)
    requires |w| == |xs|
    requires forall i :: 0 <= i < |w| ==> w[i] >= 0.0
    requires forall i :: 0 <= i < |xs| ==> lo <= xs[i] <= hi
    ensures lo * Sum(w) <= Dot(w, xs) <= hi * Sum(w)
  {
    var n := |xs|;
    if n > 0 {
      DotBounds(w[..n - 1], xs[..n - 1], lo, hi);
      assert w[..n] == w;
      var a, x := w[n - 1], xs[n - 1];
      assert a * (x - lo) >= 0.0;
      assert a * (hi - x) >= 0.0;
    }
  }

  /** A sum of `n` copies of `c` is `n * c`. */
  lemma {:induction false} SumOfConstant(xs: seq<real>, c: real)
    requires forall i :: 0 <= i < |xs| ==> xs[i] == c
    ensures Sum(xs) == |xs| as real * c
  {
    if |xs| > 0 {
      SumOfConstant(xs[..|xs| - 1], c);
    }
  }

  /** Scaling commutes with summation. */
  lemma {:induction false} SumOfScale(c: real, xs: seq<real>)
    ensures Sum(Scale(c, xs)) == c * Sum(xs)
  {
    var n := |xs|;
    if n > 0 {
      SumOfScale(c, xs[..n - 1]);
      var r, q := Scale(c, xs), Scale(c, xs[..n - 1]);
      forall i | 0 <= i < n - 1
        ensures r[..n - 1][i] == q[i]
      {
        assert r[i] == c * xs[i];
      }
      assert r[..n - 1] == q;
    }
  }

  /** Coordinate `j` of a merge of copies of `v` is `v[j]` times the total weight. */
  lemma {:induction false} CoordinateOfCopies(w: seq<real>, ps: seq<Vector>, v: Vector, j: nat)
    requires |w| == |ps|
    requires forall i :: 0 <= i < |ps| ==> ps[i] == v
    requires j < |v|
    ensures AllDim(ps, |v|)
    ensures WeightedSum(w, ps, |v|)[j] == Sum(w) * v[j]
  {
    var n := |ps|;
    if n > 0 {
      CoordinateOfCopies(w[..n - 1], ps[..n - 1], v, j);
      assert w[..n] == w;
    }
  }

  /** In particular, with weights summing to one, merging identical client
      vectors returns that vector unchanged. */
  lemma MergeOfIdenticalVectors(w: seq<real>, ps: seq<Vector>, v: Vector)
    requires |w| == |ps|
    requires Sum(w) == 1.0
    requires forall i :: 0 <= i < |ps| ==> ps[i] == v
    ensures AllDim(ps, |v|)
    ensures WeightedSum(w, ps, |v|) == v
  {
    assert AllDim(ps, |v|);
    var r := WeightedSum(w, ps, |v|);
    forall j | 0 <= j < |v|
      ensures r[j] == v[j]
    {
      CoordinateOfCopies(w, ps, v, j);
      assert Sum(w) * v[j] == v[j];
    }
  }

  /** Two clients with weights `a` and `b`: the merge is `a * v0 + b * v1`. */
  lemma TwoClientMerge(a: real, b: real, v0: Vector, v1: Vector)
    requires |v0| == |v1|
    ensures AllDim([v0, v1], |v0|)
    ensures WeightedSum([a, b], [v0, v1], |v0|)
         == seq(|v0|, j requires 0 <= j < |v0| => a * v0[j] + b * v1[j])
  {
    var d := |v0|;
    assert [a, b][..1] == [a] && [v0, v1][..1] == [v0];
    assert [a][..0] == [] && [v0][..0] == [];
    var first := WeightedSum([a], [v0], d);
    assert WeightedSum([], [], d) == Zeros(d);
    assert first == AddScaled(Zeros(d), a, v0);
    var r := WeightedSum([a, b], [v0, v1], d);
    assert r == AddScaled(first, b, v1);
    var e := seq(d, j requires 0 <= j < d => a * v0[j] + b * v1[j]);
    forall j | 0 <= j < d
      ensures r[j] == e[j]
    {
      assert first[j] == 0.0 + a * v0[j];
    }
    assert r == e;
  }
}

=== FILE: weights.dfy ===
/** The weighting policy of `get_clients_weights`: every client's influence on
    the merged model, derived from the clients' sample counts. */
module ClientsWeights {
  import opened Results
  import opened Vectors

  /** The two exceptions `get_clients_weights` can raise. */
  datatype WeightsError =
    | UnsupportedObjective(message: string)  // NotImplementedError
    | ZeroDivision                           // ZeroDivisionError of `num_samples / 0`

  /** Total number of samples, accumulated client by client. */
  function Total(samples: seq<nat>): nat
  {
    if |samples| == 0 then 0 else Total(samples[..|samples| - 1]) + samples[|samples| - 1]
  }

  /** The sample counts as exact reals. */
  function AsReals(samples: seq<nat>): (xs: seq<real>)
    ensures |xs| == |samples|
    ensures forall i :: 0 <= i < |samples| ==> xs[i] == samples[i] as real
  {
    seq(|samples|, i requires 0 <= i < |samples| => samples[i] as real)
  }

  /** Text of the NotImplementedError raised for an unknown objective. */
  function UnsupportedObjectiveMessage(objective: string): string
  {
    objective + " is not an available objective type. Possible are 'average' and 'weighted'."
  }

  /** One weight per client, in client order: `1/n` for "average", the client's
      share of all samples for "weighted". The policy is only consulted inside
      the per-client loop, so an empty population yields `[]` whatever the
      policy, and a zero total under "weighted" divides by zero. */
  function Weights(samples: seq<nat>, objective: string): (r: Result<seq<real>, WeightsError>)
    ensures r.Success? ==> |r.value| == |samples|
  {
    var n := |samples|;
    if n == 0 then Success([])
    else if objective == "average" then Success(seq(n, _ => 1.0 / n as real))
    else if objective == "weighted" then
      if Total(samples) == 0 then Failure(ZeroDivision)
      else Success(seq(n, i requires 0 <= i < n => samples[i] as real / Total(samples) as real))
    else Failure(UnsupportedObjective(UnsupportedObjectiveMessage(objective)))
  }

  /** The source's two loops: first the total, then one weight per client,
      raising at the first client when the policy is unknown or the total is
      zero. Agrees with `Weights` on every input. */
  method GetClientsWeights(samples: seq<nat>, objective: string)
    returns (r: Result<seq<real>, WeightsError>)
    ensures r == Weights(samples, objective)
  {
    var n := |samples|;
    var total: nat := 0;
    var k := 0;
    while k < n
      invariant 0 <= k <= n
      invariant total == Total(samples[..k])
    {
      assert samples[..k + 1][..k] == samples[..k];
      total := total + samples[k];
      k := k + 1;
    }
    assert samples[..n] == samples;
    var weights: seq<real> := [];
    k := 0;
    while k < n
      invariant 0 <= k <= n
      invariant |weights| == k
      invariant objective == "average" ==> forall i :: 0 <= i < k ==> weights[i] == 1.0 / n as real
      invariant k > 0 ==> objective == "average" || objective == "weighted"
      invariant objective == "weighted" && k > 0 ==> total > 0
      invariant objective == "weighted" ==>
        forall i :: 0 <= i < k ==> weights[i] == samples[i] as real / total as real
    {
      var weight: real;
      if objective == "average" {
        weight := 1.0 / n as real;
      } else if objective == "weighted" {
        if total == 0 {
          return Failure(ZeroDivision);
        }
        weight := samples[k] as real / total as real;
      } else {
        return Failure(UnsupportedObjective(UnsupportedObjectiveMessage(objective)));
      }
      weights := weights + [weight];
      k := k + 1;
    }
    if n > 0 {
      assert weights == Weights(samples, objective).value;
    }
    return Success(weights);
  }

  /** The real-valued sum of the counts is their integer total. */
  lemma {:induction false} SumOfCounts(samples: seq<nat>)
    ensures Sum(AsReals(samples)) == Total(samples) as real
  {
    var n := |samples|;
    if n > 0 {
      SumOfCounts(samples[..n - 1]);
      assert AsReals(samples)[..n - 1] == AsReals(samples[..n - 1]);
    }
  }

  /** No client holds more samples than all clients together. */
  lemma {:induction false} CountAtMostTotal(samples: seq<nat>, i: nat)
    requires i < |samples|
    ensures samples[i] <= Total(samples)
  {
    var n := |samples|;
    if i < n - 1 {
      CountAtMostTotal(samples[..n - 1], i);
    }
  }

  /** "average": every one of the `n` weights is `1/n`, and they sum to one. */
  lemma AverageWeights(samples: seq<nat>)
    requires |samples| > 0
    ensures Weights(samples, "average").Success?
    ensures forall i :: 0 <= i < |samples| ==>
      Weights(samples, "average").value[i] == 1.0 / |samples| as real
    ensures Sum(Weights(samples, "average").value) == 1.0
  {
    var w := Weights(samples, "average").value;
    SumOfConstant(w, 1.0 / |samples| as real);
  }

  /** "weighted" with some samples: weight `i` is client `i`'s share of the
      samples, lies in [0, 1], and the weights sum to one. */
  lemma WeightedWeights(samples: seq<nat>)
    requires Total(samples) > 0
    ensures Weights(samples, "weighted").Success?
    ensures forall i :: 0 <= i < |samples| ==>
      Weights(samples, "weighted").value[i] == samples[i] as real / Total(samples) as real
    ensures forall i :: 0 <= i < |samples| ==>
      0.0 <= Weights(samples, "weighted").value[i] <= 1.0
    ensures Sum(Weights(samples, "weighted").value) == 1.0
  {
    WeightedWeightsBounded(samples);
    WeightedSumsToOne(samples);
  }

  /** Each "weighted" share lies in [0, 1]. */
  lemma WeightedWeightsBounded(samples: seq<nat>)
    requires Total(samples) > 0
    ensures Weights(samples, "weighted").Success?
    ensures forall i :: 0 <= i < |samples| ==>
      0.0 <= Weights(samples, "weighted").value[i] <= 1.0
  {
    var w := Weights(samples, "weighted").value;
    forall i | 0 <= i < |samples|
      ensures 0.0 <= w[i] <= 1.0
    {
      CountAtMostTotal(samples, i);
      ShareBounds(samples[i] as real, Total(samples) as real);
    }
  }

  /** A part of a positive whole is a fraction in [0, 1]. */
  lemma ShareBounds(x: real, t: real)
    requires 0.0 <= x <= t
    requires t > 0.0
    ensures 0.0 <= x / t <= 1.0
  {
    assert x / t * t == x;
  }

  /** The "weighted" shares add up to one. */
  lemma WeightedSumsToOne(samples: seq<nat>)
    requires Total(samples) > 0
    ensures Weights(samples, "weighted").Success?
    ensures Sum(Weights(samples, "weighted").value) == 1.0
  {
    var t := Total(samples) as real;
    var counts := AsReals(samples);
    WeightedIsScaledCounts(samples);
    SumOfScale(1.0 / t, counts);
    SumOfCounts(samples);
    assert Sum(Scale(1.0 / t, counts)) == (1.0 / t) * t;
  }

  /** Under "weighted", the weights are the counts scaled by one over the total. */
  lemma WeightedIsScaledCounts(samples: seq<nat>)
    requires Total(samples) > 0
    ensures Weights(samples, "weighted") == Success(Scale(1.0 / Total(samples) as real, AsReals(samples)))
  {
    var n, t := |samples|, Total(samples) as real;
    var w := seq(n, i requires 0 <= i < n => samples[i] as real / t);
    assert Weights(samples, "weighted") == Success(w);
    var scaled := Scale(1.0 / t, AsReals(samples));
    forall i | 0 <= i < n
      ensures w[i] == scaled[i]
    {
      ScaledEntry(AsReals(samples), t, i);
    }
    assert w == scaled;
  }

  lemma ScaledEntry(xs: seq<real>, t: real, i: nat)
    requires t != 0.0 && i < |xs|
    ensures xs[i] / t == Scale(1.0 / t, xs)[i]
  {
    DivisionIsScaling(xs[i], t);
  }

  lemma DivisionIsScaling(x: real, t: real)
    requires t != 0.0
    ensures x / t == (1.0 / t) * x
  {
  }

  /** "weighted" over clients that hold no samples at all divides by zero. */
  lemma WeightedWithoutSamplesFails(samples: seq<nat>)
    requires |samples| > 0
    requires forall i :: 0 <= i < |samples| ==> samples[i] == 0
    ensures Weights(samples, "weighted") == Failure(ZeroDivision)
  {
    if Total(samples) > 0 {
      var n := |samples|;
      assert samples == samples[..n - 1] + [0];
      ZeroCountsTotal(samples);
    }
  }

  /** All-zero counts total zero. */
  lemma {:induction false} ZeroCountsTotal(samples: seq<nat>)
    requires forall i :: 0 <= i < |samples| ==> samples[i] == 0
    ensures Total(samples) == 0
  {
    if |samples| > 0 {
      ZeroCountsTotal(samples[..|samples| - 1]);
    }
  }

  /** An unknown policy raises, naming itself, as soon as there is a client;
      with no clients nothing is raised and the list is empty. */
  lemma UnsupportedObjectiveRaises(samples: seq<nat>, objective: string)
    requires objective != "average" && objective != "weighted"
    ensures |samples| > 0 ==>
      Weights(samples, objective) == Failure(UnsupportedObjective(UnsupportedObjectiveMessage(objective)))
    ensures |samples| == 0 ==> Weights(samples, objective) == Success([])
  {
  }

  /** Whatever the policy, a successful result over a non-empty population is
      a probability vector: entries in [0, 1] summing to one. */
  lemma SuccessfulWeightsAreDistribution(samples: seq<nat>, objective: string)
    requires |samples| > 0
    requires Weights(samples, objective).Success?
    ensures forall i :: 0 <= i < |samples| ==> 0.0 <= Weights(samples, objective).value[i] <= 1.0
    ensures Sum(Weights(samples, objective).value) == 1.0
  {
    if objective == "average" {
      AverageWeights(samples);
      var n := |samples| as real;
      assert 1.0 / n <= 1.0;
    } else {
      WeightedWeights(samples);
    }
  }

  /** Sample counts 10, 30 and 60 give weights 0.1, 0.3 and 0.6 exactly. */
  lemma WeightedExample()
    ensures Weights([10, 30, 60], "weighted") == Success([0.1, 0.3, 0.6])
  {
    var s: seq<nat> := [10, 30, 60];
    assert s[..2] == [10, 30] && s[..2][..1] == [10] && s[..2][..1][..0] == [];
    assert Total([]) == 0;
    assert Total([10]) == 10;
    assert Total([10, 30]) == 40;
    assert Total(s) == 100;
    var w := Weights(s, "weighted").value;
    assert w[0] == 0.1 && w[1] == 0.3 && w[2] == 0.6;
    assert w == [0.1, 0.3, 0.6];
  }
}
